=== FILE: README.md ===
# udiskie's UDisks1 device cache and event translator, in Dafny

This project models the core of `udiskie/udisks1.py`, udiskie's layer over the
UDisks 1 DBus service. The core is the `Daemon` class. It keeps a cache
`_devices` that maps each device object path to a snapshot of that device's
properties (a `CachedDevice`). It also listens to the four UDisks signals
(`DeviceAdded`, `DeviceRemoved`, `DeviceChanged`, `DeviceJobChanged`) and turns
them into udiskie events: `device_added`, `device_removed`, `device_changed`,
`media_added`, `media_removed`, `<stem>ing` / `<stem>ed` for jobs, and
`job_failed`. Around it sit the pure helpers the daemon relies on:

- `filter_opt` and the option list that `mount` builds;
- the properties `OnlineDevice` derives from the raw DBus properties;
- the recursive properties `drive` and `in_use`;
- the three policy tables: `_action_mapping`, `_event_mapping` and `_check_success`.

Files and modules:

- `wrappers.dfy` (`Wrappers`): `Option`.
- `devices.dfy` (`Devices`): covers several parts of the device layer:
  - the raw property bag (`DeviceRecord`);
  - the live service at one instant (`Live`: the paths that answer, with their properties);
  - the derived flags;
  - a snapshot (`Snapshot`) and how it is taken (`Capture`);
  - the late-bound relational properties of a snapshot (`Resolve`);
  - `drive` (`DriveOf`) and `in_use` (`InUse`) over an acyclic device graph.
- `options.dfy` (`MountOptions`): `filter_opt`, Python's `str.split`, the
  removal of empty segments, the mount option list and the fstype default.
- `policy.dfy` (`Policy`): the six actions, the three tables, and the 19
  event names the emitter is constructed with.
- `registry.dfy` (`Registry`): the value of `_devices` after each cache
  operation (`get`, `paths`, iteration, `update`, `_invalidate`, `_sync`), and
  how the late-bound relational properties relate to that cache.
- `jobs.dfy` (`Jobs`): events and their payloads, `_jobs`, `_errors`, the media
  diff of `_on_device_changed`, and the job state machine of
  `_device_job_changed`. Each is given as the value the daemon computes.
- `daemon.dfy` (`UDisks1Daemon`): `class Daemon`. Its fields are `devices`,
  `jobs`, `errors` and the `emitted` event log. Each signal handler is a method
  that updates the fields in place. Its `ensures` tie the new state to the
  functions of `Registry` and `Jobs`, and every method preserves the invariant
  `Valid()`. The invariant says four things: every snapshot is filed under
  its own object path; there is an error slot for every action; every
  emitted event has a registered name; and every recorded job has a tracked
  kind.

How the source's Python behaviour is represented:

- A device that does not answer a property read is invalid. A snapshot of
  an invalid device keeps no properties (`props == None`). In the source,
  each property read that raised leaves `None` in the snapshot. `is_block`
  is constant and does not raise, and `is_valid` is `False`.
- The four relational properties of a snapshot (`partition_slave`,
  `luks_cleartext_slave`, `luks_cleartext_holder`, `drive`) store an object
  path. Each read looks the path up through the service object of the
  device the snapshot was taken from. The snapshots are taken from devices
  that the daemon's `Sniffer` creates, so that object is the `Sniffer`, and
  the read yields a fresh proxy of the live device
  (`udisks1.py:335-342`, `357`, `457-460`). The daemon's own cache plays no
  part. `Resolve` shows that proxy by a capture taken at the moment of the
  read.
- Python truth values are spelled out. The cached `is_unlocked` holds a live
  proxy of the cleartext holder, and the truth of that proxy is its validity
  at the moment it is tested. So the unlock and lock success checks read the
  live service as it is when the job ends (`Snapshot.IsUnlocked(live)`).
- Exceptions that escape a handler become `Outcome.Raised`. Each one is
  modelled at the point where Python raises it, after whatever was already
  done:
  - `_check_success` for mount or unlock on a path the cache has never seen
    (an attribute read on `None`), before any event;
  - `del self._jobs[p]` for a path with no recorded job, after the `<stem>ed`
    event;
  - `_on_device_changed` when the cache had no entry before the change,
    after `device_changed`.
- `trigger` appends `(name, payload)` to `emitted`. `_on_device_changed` is
  the first handler connected to `device_changed`, so its media events
  directly follow that event.

Points where the code differs from how the daemon is usually described.
The model follows the code in each case:

- A failed job stays in `_jobs`. Only the success branch removes it
  (`udisks1.py:625-631`).
- The success check reads the cached entry as it is. Nothing refreshes it
  from the service first (`udisks1.py:620`).
- `update` always returns the fresh capture, even when it stores an
  invalidated copy of the old entry instead (`udisks1.py:558-565`).
- The emitter is constructed with 19 names: 9 stems, each with `ed` and
  `ing`, plus `job_failed`. This includes `device_adding` and
  `device_removing` (`udisks1.py:504-515`).
- `device_removed` carries the cache entry as it was before this
  invalidation, valid or not (an earlier `update` with an invalid capture
  may already have flagged it invalid). For a path never seen it is `None`
  (`udisks1.py:587-591`).

## Model

| member | source | states |
|---|---|---|
| `Devices.CaptureProps` | udiskie/udisks1.py:101-308 | the cached properties are the values the service reported when the snapshot was taken (the flags, `device_file`, presentation, `id_*`, `is_systeminternal`, `presentation_hide`, the mount paths while mounted, the detach/eject capabilities of a drive and each relational path while its flag holds); of the derived ones, `is_filesystem`/`is_crypto` hold exactly when `id_usage` is `filesystem`/`crypto` (never both), `is_external` is the negation of `is_systeminternal`, `is_detachable`/`is_ejectable` are `None` exactly for non-drives, `mount_paths` is empty when unmounted, and each relational path is present exactly when its flag holds |
| `Devices.Capture` | udiskie/udisks1.py:354-365 | a snapshot of `p` is filed under `p`, is valid exactly when the device answers, and then keeps exactly the properties `CaptureProps` derives from the device's record; an invalid snapshot keeps none |
| `Devices.DriveOf` | udiskie/udisks1.py:236-248 | `drive` of an answering device that is neither a partition nor a cleartext device is the device itself; through a link to a device that does not answer, `drive` raises (`None`); whenever `drive` yields a device, that device answers and is neither a partition nor a cleartext device |
| `Devices.DriveOfFollowsLink` | udiskie/udisks1.py:243-246 | a partition or cleartext device whose container answers has the drive of that container |
| `Devices.DriveOfTotal` | udiskie/udisks1.py:236-248 | where every partition and cleartext link leads to an answering device, every answering device has a drive |
| `Devices.DriveOfDrive` | udiskie/udisks1.py:236-248 | the drive of a drive is itself |
| `Devices.Resolve` | udiskie/udisks1.py:335-342 | reading a late-bound relational property yields, for a stored path `q`, a device filed under `q` that is valid exactly when `q` answers now, with the properties the live service reports now; `None` when no path is stored |
| `Devices.PartitionSlaveOf` | udiskie/udisks1.py:387-390 | `partition_slave` yields a device exactly when the snapshot stored a slave path, and that device is filed under the stored path |
| `Devices.InUse` | udiskie/udisks1.py:323-332 | a mounted or unlocked device is in use; a device that is neither is in use exactly when it is a partition table one of whose partitions is in use (the converse direction is `PartitionInUseMakesTableInUse`) |
| `Devices.PartitionInUseMakesTableInUse` | udiskie/udisks1.py:328-331 | a partition table with a partition in use is in use |
| `Devices.InUseWitness` | udiskie/udisks1.py:323-332 | an in-use device has a mounted or unlocked answering device with the same `drive`: itself, or one reached by descending through the in-use partitions that `InUse` names |
| `MountOptions.FilterOpt` | udiskie/udisks1.py:34-36 | `filter_opt` returns exactly the keys whose value is not `None`, no more than there are items |
| `MountOptions.FilterOptAppend` | udiskie/udisks1.py:34-36 | `filter_opt` keeps item order: it distributes over concatenation |
| `MountOptions.Split` | udiskie/udisks1.py:286 | `split(',')` yields at least one segment, none containing the separator |
| `MountOptions.JoinSplit` | udiskie/udisks1.py:286 | joining the segments of a split gives back the string |
| `MountOptions.SplitJoin` | udiskie/udisks1.py:286 | splitting the join of separator-free segments gives back the segments |
| `MountOptions.NonEmpty` | udiskie/udisks1.py:286 | `filter(None, …)` keeps exactly the non-empty segments |
| `MountOptions.NonEmptyAppend` | udiskie/udisks1.py:286 | `filter(None, …)` keeps the order of the segments: it distributes over concatenation |
| `MountOptions.NonEmptyKeeps` | udiskie/udisks1.py:286 | a list of non-empty segments passes through `filter(None, …)` unchanged |
| `MountOptions.MountOptionList` | udiskie/udisks1.py:286-288 | the mount option list holds only non-empty, comma-free options, contains every non-empty segment of `options`, ends with `auth_no_user_interaction` when that argument is given, and is empty when neither argument is given |
| `MountOptions.MountOptionListOfJoin` | udiskie/udisks1.py:286-288 | for options written as comma-joined segments (empty ones allowed) and any `auth_no_user_interaction`, the list is exactly the non-empty segments in order, followed by the `filter_opt` keys of that argument |
| `MountOptions.NoOptionsIsEmptyOptions` | udiskie/udisks1.py:286-288 | omitted options behave as the empty string: the list is then only the `filter_opt` keys |
| `MountOptions.MountFsType` | udiskie/udisks1.py:289 | the fstype is the argument when it is truthy (given and non-empty); when it is omitted or empty, the device's `id_type` |
| `Policy.ActionOf` | udiskie/udisks1.py:636-642 | `_action_mapping` maps a job kind to an action exactly when it is that action's UDisks job kind |
| `Policy.EventStem` | udiskie/udisks1.py:644-649 | `_event_mapping` gives each action its stem (`device_mount`, `device_unmount`, `device_unlock`, `device_lock`, `media_remov` for eject, `device_remov` for detach), each one of the stems the daemon registers events for |
| `Policy.JobEventNames` | udiskie/udisks1.py:478-485 | the `ed` events of the six actions are `device_mounted`, `device_unmounted`, `device_unlocked`, `device_locked`, `media_removed` and `device_removed`, with the matching `ing` forms |
| `Policy.Suffixed` | udiskie/udisks1.py:504-515 | the registered names for one suffix: one name per stem, in stem order, each the stem followed by the suffix |
| `Policy.JobEventsRegistered` | udiskie/udisks1.py:504-515 | `<stem>ing` and `<stem>ed` of every action's `_event_mapping` stem are among the registered names |
| `Policy.FixedEventsRegistered` | udiskie/udisks1.py:504-515 | 19 names are registered, including `device_added`, `device_removed`, `device_changed`, `media_added`, `media_removed` and `job_failed` |
| `Policy.CheckSuccess` | udiskie/udisks1.py:651-658 | the success check raises exactly for mount and unlock on an unseen path; otherwise mount succeeds exactly when the entry is mounted and unlock exactly when its cleartext holder answers now; unmount succeeds exactly when the entry is absent, invalid or unmounted, lock when it is absent, invalid or not unlocked, eject when it is absent, invalid or without media, detach when it is absent or invalid |
| `Policy.CapturedChecks` | udiskie/udisks1.py:651-658 | on a fresh capture of an answering device, mount succeeds exactly when the service reports it mounted and unmount exactly when not; unlock exactly when it is a LUKS device whose cleartext holder answers and lock exactly when not; eject exactly when it reports no media; detach fails |
| `Policy.ChecksComplementary` | udiskie/udisks1.py:651-658 | on a valid entry, exactly one of mount/unmount and exactly one of unlock/lock succeeds |
| `Registry.Lookup` | udiskie/udisks1.py:554-556 | `get` returns `None` exactly for a never-seen path, else the cached entry |
| `Registry.ValidPaths` | udiskie/udisks1.py:548-552 | `paths` yields exactly the cached paths whose entry is valid |
| `Registry.Iterate` | udiskie/udisks1.py:412-414 | iteration yields only valid snapshots, and the snapshot of every valid path |
| `Registry.Invalidated` | udiskie/udisks1.py:668-673 | `_invalidate` keeps every key, changes only `p`'s entry, and only its validity flag; afterwards `p` is not among the valid paths |
| `Registry.Updated` | udiskie/udisks1.py:558-565 | after `update(p)` the keys are the old keys plus `p`; `p` holds the fresh capture if it is valid or `p` was unknown, and otherwise the old entry flagged invalid; all other entries are unchanged; `p` is valid exactly when the capture is |
| `Registry.Synced` | udiskie/udisks1.py:661-666 | `_sync` caches exactly the answering devices, all valid, each as a fresh capture |
| `Registry.InvalidateIdempotent` | udiskie/udisks1.py:668-673 | invalidating twice is invalidating once |
| `Registry.KeysNeverShrink` | udiskie/udisks1.py:558-565 | neither `update` nor `_invalidate` removes a key |
| `Registry.UpdateThenLookup` | udiskie/udisks1.py:558-565 | after an update with a valid capture `get` returns it; with an invalid capture of a known path, `get` returns the old entry flagged invalid |
| `Registry.PartitionSlaveIsLateBound` | udiskie/udisks1.py:387-390 | `partition_slave` of a snapshot taken earlier is a capture of the slave as the service shows it now; whatever the cache holds for the slave, the read disagrees with a stale entry |
| `Jobs.NoErrors` | udiskie/udisks1.py:523-525 | `_errors` starts with an empty slot for each of the six actions |
| `Jobs.SetError` | udiskie/udisks1.py:568-569 | `set_error` stores the message under `(action, p)` and changes no other slot |
| `Jobs.MediaEvents` | udiskie/udisks1.py:572-579 | `media_added` exactly when media appeared, `media_removed` exactly when it vanished, never both, no other event name, each carrying the new state; raises exactly when there was no old state |
| `Jobs.CapturedMediaEvents` | udiskie/udisks1.py:572-579 | between two captures of a known path, `media_added` fires exactly when the service reported no media before and the device now answers with media, and `media_removed` exactly when it reported media before and does not now |
| `Jobs.EffectiveKind` | udiskie/udisks1.py:613-614 | a terminal notification for a path with a recorded job takes the recorded kind, any other notification its own |
| `Jobs.OnJobChanged` | udiskie/udisks1.py:601-633 | a notification is ignored exactly when its effective kind is untracked, and then changes nothing; at most one event; `_jobs` is unchanged, loses `p`, or (in progress) records `Job(jobId, percentage)` under `p`; each error slot is unchanged or loses `p` |
| `Jobs.JobFinished` | udiskie/udisks1.py:625-633 | a terminal notification is never ignored, emits at most one event, leaves `_jobs` unchanged or without `p`, and removes at most `p` from an error slot |
| `Jobs.JobEventsAreRegistered` | udiskie/udisks1.py:622-631 | every event a job notification emits has a registered name |
| `Jobs.UnknownKindIgnored` | udiskie/udisks1.py:615-618 | an untracked job kind leaves `_jobs`, `_errors` and the event log unchanged |
| `Jobs.ProgressRecordsJob` | udiskie/udisks1.py:622-624 | an in-progress notification emits `<stem>ing` with the device and percentage and sets `_jobs[p]` to `Job(jobId, percentage)` |
| `Jobs.TerminalUsesRecordedKind` | udiskie/udisks1.py:613-614 | a terminal notification for a path with a recorded job behaves the same whatever kind it carries |
| `Jobs.TerminalOutcome` | udiskie/udisks1.py:625-631 | a terminal notification emits `<stem>ed` and drops the job when the check succeeds (raising if no job was recorded), emits `job_failed` with `device_<action>` and keeps `_jobs` when it fails, and raises without any event when the check raises |
| `Jobs.RecordedJobNotIgnored` | udiskie/udisks1.py:613-618 | while every recorded job has a tracked kind, a terminal notification for a path with a job is never ignored |
| `Jobs.ErrorMessageConsumedOnce` | udiskie/udisks1.py:630 | after `set_error(p, a, m)` the next failure of `a` on `p` reports `m` and empties that slot; the failure after it reports `""`; no other slot changes |
| `UDisks1Daemon.Daemon.constructor` | udiskie/udisks1.py:494-545 | a new daemon has no jobs, an empty slot per action, no events, and the cache of a full `_sync` |
| `UDisks1Daemon.Daemon.Sync` | udiskie/udisks1.py:661-666 | `_sync` replaces the cache by `Synced(live)` and touches nothing else |
| `UDisks1Daemon.Daemon.Trigger` | udiskie/udisks1.py:504-516 | only names registered at construction are triggered; the event is appended to the log |
| `UDisks1Daemon.Daemon.Invalidate` | udiskie/udisks1.py:668-673 | in place, the cache becomes `Invalidated(old cache, p)` |
| `UDisks1Daemon.Daemon.Update` | udiskie/udisks1.py:558-565 | in place, the cache becomes `Updated(old cache, p, capture)`, and the fresh capture is returned |
| `UDisks1Daemon.Daemon.SetError` | udiskie/udisks1.py:568-569 | in place, the error slots become `SetError(old slots, p, action, message)` |
| `UDisks1Daemon.Daemon.OnDeviceChanged` | udiskie/udisks1.py:572-579 | appends exactly the media events of the change, or raises when there was no old state |
| `UDisks1Daemon.Daemon.DeviceAdded` | udiskie/udisks1.py:582-585 | updates `p` and appends `device_added` with the fresh capture |
| `UDisks1Daemon.Daemon.DeviceRemoved` | udiskie/udisks1.py:587-591 | invalidates `p` and appends `device_removed` with the entry as it was before (or `None`) |
| `UDisks1Daemon.Daemon.DeviceChanged` | udiskie/udisks1.py:593-597 | updates `p`, appends `device_changed` with the old and new states, then the media events; raises when there was no old state |
| `UDisks1Daemon.Daemon.DeviceJobChanged` | udiskie/udisks1.py:601-633 | jobs, error slots, appended events and outcome are those of `OnJobChanged` on the cached entry of `p`; the cache is untouched |
| `UDisks1Daemon.Daemon.FinishJob` | udiskie/udisks1.py:625-633 | jobs, error slots, appended events and outcome are those of `JobFinished` |

## Left out

- DBus transport (`DBusProxy`, `DBusService`, `Sniffer`, signal-receiver registration at lines 528-544, `connect_service`): replaced by the `Live` map passed to each handler. Its keys are the devices the service lists that answer a property read.
- `Emitter`, `connect` and `trigger` (from `udiskie.common`, which is not part of this model): `trigger` is an append to `emitted`. Handlers other than `_on_device_changed`, and exceptions they might raise, are not modelled.
- `samefile`, `is_file` and `find` (lines 63-66, 419-431): they depend on filesystem identity. `os.path.normpath` on `device_file` and the mount paths is not applied either.
- `getmembers` reflection and `__getattr__` delegation in `CachedDevice` (lines 354-369): the snapshot is the explicit `Props` record. The cached `drive`, `root`, `in_use`, `is_block` and `is_toplevel` attributes are not stored in it. `drive` and `in_use` are given as functions of the live service.
- `Devices.InUse`: defined for answering devices only. `in_use` of a device that does not answer raises on its first property read; so does the partition scan when the service lists a device that does not answer. Neither raise is modelled (`Live` holds only answering devices).
- `DriveOf`, `InUse`: require the partition and cleartext links of the live devices to be acyclic. On a cycle, the source recurses until Python's recursion limit.
- Action methods that only forward to DBus (`eject`, `detach`, `unmount`, `lock`, `unlock`, `CachedDevice.unlock`): only the option list and fstype of `mount` are modelled.
- Logging (lines 430, 632-633) and the race noted at line 621: notifications are a sequential stream of method calls.
- `Devices.Resolve`: a stored `None` is also looked up through the service object, which passes `None` to the DBus library as an object path. What that library does then is not part of this model; `Resolve` gives `None`.
- `Registry.Invalidated`, `UDisks1Daemon.Daemon.Invalidate`: `copy` of a `CachedDevice` is taken to succeed, as it does under Python 2. Under Python 3, `copy` asks a fresh, uninitialised instance for `__setstate__`. That reaches `__getattr__`, which reads the missing `_device` through `__getattr__` again, and the recursion error escapes `hasattr`. The model does not capture that failure (`udisks1.py:367-369`, `671`).
- `Registry.ValidPaths`, `Registry.Iterate`: sets, so the insertion order of the Python dictionary is not modelled.
- `DeviceJobChanged`: the unused signal arguments `job_initiated_by_user` and `job_is_cancellable` are omitted.
- `SetError`: the action is typed as one of the six actions. A call with any other action name, which raises `KeyError` in the source, cannot be expressed.
- `DeviceBase.__str__`, `__eq__` and `__ne__`: devices are compared by object path throughout.

=== FILE: daemon.dfy ===
/**
 * `Daemon`: the cache of device snapshots and the listener that turns
 * UDisks notifications into events. The four DBus signals arrive as calls
 * to `DeviceAdded`, `DeviceRemoved`, `DeviceChanged` and
 * `DeviceJobChanged`, each given the live service as it is at that moment;
 * `trigger` appends to the `emitted` log.
 */
module UDisks1Daemon {
  import opened Wrappers
  import opened Devices
  import opened Policy
  import opened Registry
  import opened Jobs

  class Daemon {
    /** `_devices`: object path to latest snapshot. */
    var devices: Cache
    /** `_jobs`: object path to the job last reported in progress. */
    var jobs: map<Path, Job>
    /** `_errors`: messages queued for the next failure, per action and path. */
    var errors: ErrorSlots
    /** Every `trigger` call so far, in order. */
    var emitted: seq<Event>

    /**
     * The daemon's invariant: every snapshot filed under its own path, a
     * slot per action, only registered event names emitted, and only
     * tracked job kinds recorded.
     */
    ghost predicate Valid()
      reads this
    {
      && (forall q :: q in devices ==> devices[q].objectPath == q)
      && AllSlots(errors)
      && (forall e :: e in emitted ==> e.name in EventNames)
      && (forall q :: q in jobs ==> ActionOf(jobs[q].jobId).Some?)
    }

    /** `Daemon.__init__`: empty tables, then a full `_sync`. */
    constructor (live: Live)
      ensures Valid()
      ensures devices == Synced(live)
      ensures jobs == map[] && errors == NoErrors() && emitted == []
    {
      devices := map[];
      jobs := map[];
      errors := NoErrors();
      emitted := [];
      new;
      Sync(live);
    }

    /** `Daemon._sync`: replace the whole cache by fresh snapshots of the listed devices. */
    method Sync(live: Live)
      requires Valid()
      modifies this
      ensures Valid()
      ensures devices == Synced(live)
      ensures jobs == old(jobs) && errors == old(errors) && emitted == old(emitted)
    {
      var online := map p | p in live :: live[p];
      devices := map p | p in online :: Capture(live, p);
    }

    /** `Emitter.trigger`: record the event. */
    method Trigger(name: string, payload: Payload)
      requires Valid()
      requires name in EventNames
      modifies this`emitted
      ensures Valid()
      ensures emitted == old(emitted) + [Event(name, payload)]
    {
      emitted := emitted + [Event(name, payload)];
    }

    /** `Daemon._invalidate`: flag a known entry invalid, keeping its key and properties. */
    method Invalidate(p: Path)
      requires Valid()
      modifies this`devices
      ensures Valid()
      ensures devices == Invalidated(old(devices), p)
    {
      if p in devices {
        var update := devices[p].(isValid := false);
        devices := devices[p := update];
      }
    }

    /**
     * `Daemon.update`: capture `p` afresh; store the capture unless the
     * device stopped answering while known, in which case invalidate the
     * known entry. Returns the capture either way.
     */
    method Update(live: Live, p: Path) returns (cached: Snapshot)
      requires Valid()
      modifies this`devices
      ensures Valid()
      ensures cached == Capture(live, p)
      ensures devices == Updated(old(devices), p, cached)
    {
      cached := Capture(live, p);
      if cached.isValid || p !in devices {
        devices := devices[p := cached];
      } else {
        Invalidate(p);
      }
    }

    /** `Daemon.set_error`. */
    method SetError(p: Path, action: Action, message: string)
      requires Valid()
      modifies this`errors
      ensures Valid()
      ensures errors == Jobs.SetError(old(errors), p, action, message)
    {
      errors := errors[action := errors[action][p := message]];
    }

    /**
     * `Daemon._on_device_changed`, the first handler of `device_changed`:
     * trigger `media_added` / `media_removed` when `has_media` flipped.
     * Raises when there was no cached state before the change.
     */
    method OnDeviceChanged(before: Option<Snapshot>, after: Snapshot) returns (outcome: Outcome)
      requires Valid()
      modifies this`emitted
      ensures Valid()
      ensures var media := MediaEvents(before, after);
              && outcome == (if media.Some? then Done else Raised(NoCachedState))
              && emitted == old(emitted) + (if media.Some? then media.value else [])
    {
      if before.None? {
        return Raised(NoCachedState);
      }
      FixedEventsRegistered();
      var mediaAdded := after.HasMedia() && !before.value.HasMedia();
      var mediaRemoved := before.value.HasMedia() && !after.HasMedia();
      if mediaAdded {
        Trigger("media_added", State(Some(after)));
      }
      if mediaRemoved {
        Trigger("media_removed", State(Some(after)));
      }
      outcome := Done;
    }

    /** `Daemon._device_added`. */
    method DeviceAdded(live: Live, p: Path)
      requires Valid()
      modifies this`devices, this`emitted
      ensures Valid()
      ensures devices == Updated(old(devices), p, Capture(live, p))
      ensures emitted == old(emitted) + [Event("device_added", State(Some(Capture(live, p))))]
    {
      var newState := Update(live, p);
      FixedEventsRegistered();
      Trigger("device_added", State(Some(newState)));
    }

    /**
     * `Daemon._device_removed`: the event carries the entry as it was before
     * invalidation (`None` for a never-seen path).
     */
    method DeviceRemoved(p: Path)
      requires Valid()
      modifies this`devices, this`emitted
      ensures Valid()
      ensures devices == Invalidated(old(devices), p)
      ensures emitted == old(emitted) + [Event("device_removed", State(Lookup(old(devices), p)))]
    {
      var oldState := Lookup(devices, p);
      Invalidate(p);
      FixedEventsRegistered();
      Trigger("device_removed", State(oldState));
    }

    /**
     * `Daemon._device_changed`: update, trigger `device_changed` with the
     * old and new states, whose first handler then adds the media events.
     */
    method DeviceChanged(live: Live, p: Path) returns (outcome: Outcome)
      requires Valid()
      modifies this`devices, this`emitted
      ensures Valid()
      ensures devices == Updated(old(devices), p, Capture(live, p))
      ensures var before := Lookup(old(devices), p);
              var media := MediaEvents(before, Capture(live, p));
              && emitted == old(emitted) + [Event("device_changed", Change(before, Capture(live, p)))]
                             + (if media.Some? then media.value else [])
              && outcome == (if media.Some? then Done else Raised(NoCachedState))
    {
      var oldState := Lookup(devices, p);
      var newState := Update(live, p);
      FixedEventsRegistered();
      Trigger("device_changed", Change(oldState, newState));
      outcome := OnDeviceChanged(oldState, newState);
    }

    /**
     * `Daemon._device_job_changed`. The cached entry of `p` is read as it
     * is; the registry is not refreshed first.
     */
    method DeviceJobChanged(live: Live, p: Path, inProgress: bool, jobId: string, percentage: real)
      returns (outcome: Outcome)
      requires Valid()
      modifies this`jobs, this`errors, this`emitted
      ensures Valid()
      ensures var r := OnJobChanged(old(jobs), old(errors), Lookup(devices, p), live, p, inProgress, jobId, percentage);
              && jobs == r.jobs && errors == r.errors
              && emitted == old(emitted) + r.events
              && outcome == r.outcome
    {
      var kind := jobId;
      if !inProgress && p in jobs {
        kind := jobs[p].jobId;
      }
      var found := ActionOf(kind);
      if found.None? {
        return Ignored;
      }
      var action := found.value;
      var dev := Lookup(devices, p);
      if inProgress {
        JobEventsRegistered(action);
        Trigger(EventStem(action) + "ing", Progress(dev, percentage));
        jobs := jobs[p := Job(kind, percentage)];
        outcome := Done;
      } else {
        outcome := FinishJob(live, p, action, dev);
      }
    }

    /** The terminal branch of `_device_job_changed`, for a job performing `action`. */
    method FinishJob(live: Live, p: Path, action: Action, dev: Option<Snapshot>) returns (outcome: Outcome)
      requires Valid()
      modifies this`jobs, this`errors, this`emitted
      ensures Valid()
      ensures var r := JobFinished(old(jobs), old(errors), dev, live, p, action);
              && jobs == r.jobs && errors == r.errors
              && emitted == old(emitted) + r.events
              && outcome == r.outcome
    {
      var eventName := EventStem(action);
      var success := CheckSuccess(action, dev, live);
      if success.None? {
        return Raised(NoCachedState);
      }
      if success.value {
        JobEventsRegistered(action);
        Trigger(eventName + "ed", State(dev));
        if p !in jobs {
          return Raised(UnrecordedJob);
        }
        jobs := jobs - {p};
        outcome := Done;
      } else {
        var message := if p in errors[action] then errors[action][p] else "";
        errors := errors[action := errors[action] - {p}];
        FixedEventsRegistered();
        Trigger("job_failed", Failure(dev, "device_" + ActionName(action), message));
        outcome := Done;
      }
    }
  }
}

=== FILE: devices.dfy ===
/**
 * Device state as udiskie's UDisks1 layer sees it: the property bag a live
 * device object reports, the snapshot a `CachedDevice` takes of it, the
 * derived flags computed by `OnlineDevice`, and the two recursive derived
 * properties `drive` and `in_use`.
 */
module Devices {
  import opened Wrappers

  /** A DBus object path naming a device. */
  type Path = string

  /** The properties the UDisks service reports for one device object. */
  datatype DeviceRecord = DeviceRecord(
    deviceFile: string,
    deviceFilePresentation: string,
    deviceIsDrive: bool,
    deviceIsPartitionTable: bool,
    deviceIsPartition: bool,
    deviceIsLuks: bool,
    deviceIsLuksCleartext: bool,
    deviceIsMounted: bool,
    deviceIsMediaAvailable: bool,
    deviceIsSystemInternal: bool,
    devicePresentationHide: bool,
    driveCanDetach: bool,
    driveIsMediaEjectable: bool,
    idUsage: string,
    idType: string,
    idLabel: string,
    idUuid: string,
    deviceMountPaths: seq<string>,
    partitionSlave: Path,
    luksCleartextSlave: Path,
    luksHolder: Path)

  /**
   * The live service at one instant: the object paths that currently answer
   * a property read, with what they report. A path that is not a key is an
   * object whose property reads raise, i.e. an invalid device.
   */
  type Live = map<Path, DeviceRecord>

  // ---------------------------------------------------------------------
  // Derived flags of OnlineDevice
  // ---------------------------------------------------------------------

  predicate IsFilesystem(rec: DeviceRecord) { rec.idUsage == "filesystem" }

  predicate IsCrypto(rec: DeviceRecord) { rec.idUsage == "crypto" }

  predicate IsExternal(rec: DeviceRecord) { !rec.deviceIsSystemInternal }

  /** `DriveCanDetach` for a drive, `None` for any other device. */
  function IsDetachable(rec: DeviceRecord): Option<bool> {
    if rec.deviceIsDrive then Some(rec.driveCanDetach) else None
  }

  /** `DriveIsMediaEjectable` for a drive, `None` for any other device. */
  function IsEjectable(rec: DeviceRecord): Option<bool> {
    if rec.deviceIsDrive then Some(rec.driveIsMediaEjectable) else None
  }

  /** The mount paths, empty whenever the device is not mounted. */
  function MountPaths(rec: DeviceRecord): seq<string> {
    if !rec.deviceIsMounted then [] else rec.deviceMountPaths
  }

  /** Path of the partition table a partition lives on. */
  function PartitionSlave(rec: DeviceRecord): Option<Path> {
    if rec.deviceIsPartition then Some(rec.partitionSlave) else None
  }

  /** Path of the LUKS container behind a cleartext device. */
  function LuksCleartextSlave(rec: DeviceRecord): Option<Path> {
    if rec.deviceIsLuksCleartext then Some(rec.luksCleartextSlave) else None
  }

  /** Path of the cleartext device that unlocks a LUKS container. */
  function LuksCleartextHolder(rec: DeviceRecord): Option<Path> {
    if rec.deviceIsLuks then Some(rec.luksHolder) else None
  }

  // ---------------------------------------------------------------------
  // Snapshots (CachedDevice)
  // ---------------------------------------------------------------------

  /**
   * The property values a `CachedDevice` stores. The relational properties
   * (`partition_slave`, `luks_cleartext_slave`, `luks_cleartext_holder`)
   * are stored as object paths and looked up, each time they are read,
   * through the service object of the device they were captured from (see
   * `Resolve`).
   * The cached `is_unlocked` is the holder's object; it is the same path as
   * `luksCleartextHolder`, so it is not stored twice.
   */
  datatype Props = Props(
    isDrive: bool,
    isPartitionTable: bool,
    isPartition: bool,
    isFilesystem: bool,
    isLuks: bool,
    isLuksCleartext: bool,
    isDetachable: Option<bool>,
    isEjectable: Option<bool>,
    hasMedia: bool,
    deviceFile: string,
    devicePresentation: string,
    idUsage: string,
    isCrypto: bool,
    isIgnored: bool,
    idType: string,
    idLabel: string,
    idUuid: string,
    isExternal: bool,
    isSystemInternal: bool,
    isMounted: bool,
    mountPaths: seq<string>,
    partitionSlave: Option<Path>,
    luksCleartextSlave: Option<Path>,
    luksCleartextHolder: Option<Path>)

  /**
   * A cached device: its path, its validity flag and its properties.
   * `props` is `None` when every property read raised at capture time
   * (each attribute then holds Python's `None`).
   */
  datatype Snapshot = Snapshot(objectPath: Path, isValid: bool, props: Option<Props>)
  {
    /** Truth value of the cached `is_mounted`. */
    predicate IsMounted() { props.Some? && props.value.isMounted }

    /** Truth value of the cached `has_media`. */
    predicate HasMedia() { props.Some? && props.value.hasMedia }

    /**
     * Truth value of the cached `is_unlocked`: the holder object is a live
     * proxy, so its truth value (its validity) is read from the service at
     * the moment it is tested.
     */
    predicate IsUnlocked(live: Live) {
      props.Some? && props.value.luksCleartextHolder.Some?
      && props.value.luksCleartextHolder.value in live
    }
  }

  /** The property values cached from a device that answers. */
  function CaptureProps(rec: DeviceRecord): (r: Props)
    ensures r.isDrive == rec.deviceIsDrive && r.isPartitionTable == rec.deviceIsPartitionTable
    ensures r.isPartition == rec.deviceIsPartition && r.isLuks == rec.deviceIsLuks
    ensures r.isLuksCleartext == rec.deviceIsLuksCleartext
    ensures r.isMounted == rec.deviceIsMounted && r.hasMedia == rec.deviceIsMediaAvailable
    ensures r.isSystemInternal == rec.deviceIsSystemInternal && r.isIgnored == rec.devicePresentationHide
    ensures r.deviceFile == rec.deviceFile && r.devicePresentation == rec.deviceFilePresentation
    ensures r.idUsage == rec.idUsage && r.idType == rec.idType
    ensures r.idLabel == rec.idLabel && r.idUuid == rec.idUuid
    ensures r.isMounted ==> r.mountPaths == rec.deviceMountPaths
    ensures r.isDrive ==> r.isDetachable == Some(rec.driveCanDetach) && r.isEjectable == Some(rec.driveIsMediaEjectable)
    ensures r.isPartition ==> r.partitionSlave == Some(rec.partitionSlave)
    ensures r.isLuksCleartext ==> r.luksCleartextSlave == Some(rec.luksCleartextSlave)
    ensures r.isLuks ==> r.luksCleartextHolder == Some(rec.luksHolder)
    ensures r.isFilesystem <==> rec.idUsage == "filesystem"
    ensures r.isCrypto <==> rec.idUsage == "crypto"
    ensures !(r.isFilesystem && r.isCrypto)
    ensures r.isExternal <==> !r.isSystemInternal
    ensures r.isDetachable.Some? <==> r.isDrive
    ensures r.isEjectable.Some? <==> r.isDrive
    ensures !r.isMounted ==> r.mountPaths == []
    ensures r.partitionSlave.Some? <==> r.isPartition
    ensures r.luksCleartextSlave.Some? <==> r.isLuksCleartext
    ensures r.luksCleartextHolder.Some? <==> r.isLuks
  {
    Props(
      isDrive := rec.deviceIsDrive,
      isPartitionTable := rec.deviceIsPartitionTable,
      isPartition := rec.deviceIsPartition,
      isFilesystem := IsFilesystem(rec),
      isLuks := rec.deviceIsLuks,
      isLuksCleartext := rec.deviceIsLuksCleartext,
      isDetachable := IsDetachable(rec),
      isEjectable := IsEjectable(rec),
      hasMedia := rec.deviceIsMediaAvailable,
      deviceFile := rec.deviceFile,
      devicePresentation := rec.deviceFilePresentation,
      idUsage := rec.idUsage,
      isCrypto := IsCrypto(rec),
      isIgnored := rec.devicePresentationHide,
      idType := rec.idType,
      idLabel := rec.idLabel,
      idUuid := rec.idUuid,
      isExternal := IsExternal(rec),
      isSystemInternal := rec.deviceIsSystemInternal,
      isMounted := rec.deviceIsMounted,
      mountPaths := MountPaths(rec),
      partitionSlave := PartitionSlave(rec),
      luksCleartextSlave := LuksCleartextSlave(rec),
      luksCleartextHolder := LuksCleartextHolder(rec))
  }

  /**
   * `CachedDevice(sniffer.get(p))`: a snapshot of the device at `p`. A device
   * is valid exactly when its property reads succeed; an invalid one keeps
   * no property values.
   */
  function Capture(live: Live, p: Path): (s: Snapshot)
    ensures s.objectPath == p
    ensures s.isValid <==> p in live
    ensures s.props.Some? <==> s.isValid
    ensures p in live ==> s.props == Some(CaptureProps(live[p]))
  {
    if p in live then Snapshot(p, true, Some(CaptureProps(live[p])))
    else Snapshot(p, false, None)
  }

  /**
   * Reading a late-bound relational property of a `CachedDevice`
   * (`partition_slave`, `luks_cleartext_slave`, `luks_cleartext_holder`,
   * `drive`): the stored object path is looked up through the service
   * object of the device the snapshot was captured from, which answers with
   * a fresh proxy of the live device. The proxy is shown by what it reports
   * at the moment of the read, that is, by a capture taken then. A stored
   * `None` (a device without that relation) gives `None` here.
   */
  function Resolve(live: Live, ref: Option<Path>): (r: Option<Snapshot>)
    ensures ref.None? ==> r.None?
    ensures ref.Some? ==> r.Some? && r.value.objectPath == ref.value
    ensures ref.Some? ==> (r.value.isValid <==> ref.value in live)
    ensures ref.Some? && ref.value in live ==> r.value.props == Some(CaptureProps(live[ref.value]))
  {
    match ref
    case None => None
    case Some(q) => Some(Capture(live, q))
  }

  /** `CachedDevice.partition_slave`, read against the live service. */
  function PartitionSlaveOf(live: Live, s: Snapshot): (r: Option<Snapshot>)
    ensures r.Some? <==> s.props.Some? && s.props.value.partitionSlave.Some?
    ensures r.Some? ==> r.value.objectPath == s.props.value.partitionSlave.value
  {
    Resolve(live, if s.props.Some? then s.props.value.partitionSlave else None)
  }

  // ---------------------------------------------------------------------
  // drive and in_use
  // ---------------------------------------------------------------------

  /** The device `drive` descends to: a partition's table, a cleartext device's container. */
  function Parent(rec: DeviceRecord): Option<Path> {
    if rec.deviceIsPartition then Some(rec.partitionSlave)
    else if rec.deviceIsLuksCleartext then Some(rec.luksCleartextSlave)
    else None
  }

  /**
   * The containment graph of the live devices is acyclic: `depth` ranks
   * every live device strictly above the live device it descends to, and
   * every rank is below `bound`.
   */
  ghost predicate Layered(live: Live, depth: map<Path, nat>, bound: nat) {
    forall p :: p in live ==>
      && p in depth
      && depth[p] < bound
      && (Parent(live[p]).Some? && Parent(live[p]).value in live ==>
            Parent(live[p]).value in depth && depth[Parent(live[p]).value] < depth[p])
  }

  /** A device counts as busy when it is mounted or its cleartext holder answers. */
  predicate Busy(live: Live, p: Path)
    requires p in live
  {
    live[p].deviceIsMounted || (live[p].deviceIsLuks && live[p].luksHolder in live)
  }

  /**
   * `OnlineDevice.drive`: follow partition and cleartext links down to a
   * device that is neither; `None` where a read on the way raised (a link to
   * a device that does not answer).
   */
  function DriveOf(live: Live, depth: map<Path, nat>, bound: nat, p: Path): (r: Option<Path>)
    requires Layered(live, depth, bound)
    ensures r.Some? ==> r.value in live && Parent(live[r.value]).None?
    ensures r.Some? ==> p in live
    ensures p in live && Parent(live[p]).None? ==> r == Some(p)
    ensures p in live && Parent(live[p]).Some? && Parent(live[p]).value !in live ==> r.None?
    decreases if p in depth then depth[p] else 0
  {
    if p !in live then None
    else match Parent(live[p])
      case None => Some(p)
      case Some(q) => if q in live then DriveOf(live, depth, bound, q) else None
  }

  /**
   * `OnlineDevice.in_use`: mounted, unlocked, or a partition table one of
   * whose partitions is in use.
   */
  function InUse(live: Live, depth: map<Path, nat>, bound: nat, p: Path): (r: bool)
    requires Layered(live, depth, bound)
    requires p in live
    ensures Busy(live, p) ==> r
    ensures r && !Busy(live, p) ==> live[p].deviceIsPartitionTable
    ensures r && !Busy(live, p) ==>
              exists c :: c in live && live[c].deviceIsPartition && live[c].partitionSlave == p
                          && InUse(live, depth, bound, c)
    decreases bound - depth[p]
  {
    Busy(live, p)
    || (live[p].deviceIsPartitionTable
        && exists c :: c in live && live[c].deviceIsPartition && live[c].partitionSlave == p
                       && InUse(live, depth, bound, c))
  }

  /** Every link of an answering device leads to a device that answers. */
  ghost predicate LinksAnswer(live: Live) {
    forall p :: p in live && Parent(live[p]).Some? ==> Parent(live[p]).value in live
  }

  /** `drive` descends through a link that answers: a device has the drive of its container. */
  lemma DriveOfFollowsLink(live: Live, depth: map<Path, nat>, bound: nat, p: Path)
    requires Layered(live, depth, bound)
    requires p in live && Parent(live[p]).Some? && Parent(live[p]).value in live
    ensures DriveOf(live, depth, bound, p) == DriveOf(live, depth, bound, Parent(live[p]).value)
  {
  }

  /** Where every link answers, `drive` never raises: every answering device has a drive. */
  lemma {:induction false} DriveOfTotal(live: Live, depth: map<Path, nat>, bound: nat, p: Path)
    requires Layered(live, depth, bound)
    requires LinksAnswer(live)
    requires p in live
    ensures DriveOf(live, depth, bound, p).Some?
    decreases depth[p]
  {
    match Parent(live[p])
    case None =>
    case Some(q) => DriveOfTotal(live, depth, bound, q);
  }

  /**
   * The partition-table case of `in_use`: a partition table one of whose
   * partitions is in use is itself in use.
   */
  lemma PartitionInUseMakesTableInUse(live: Live, depth: map<Path, nat>, bound: nat, p: Path, c: Path)
    requires Layered(live, depth, bound)
    requires p in live && live[p].deviceIsPartitionTable
    requires c in live && live[c].deviceIsPartition && live[c].partitionSlave == p
    requires InUse(live, depth, bound, c)
    ensures InUse(live, depth, bound, p)
  {
  }

  /** `drive` is a fixed point: the drive of a drive is itself. */
  lemma DriveOfDrive(live: Live, depth: map<Path, nat>, bound: nat, p: Path)
    requires Layered(live, depth, bound)
    requires DriveOf(live, depth, bound, p).Some?
    ensures DriveOf(live, depth, bound, DriveOf(live, depth, bound, p).value)
            == DriveOf(live, depth, bound, p)
  {
  }

  /**
   * A device is in use only because some device on the same drive is
   * mounted or unlocked: the witness is the device itself or one of the
   * partitions below it.
   */
  lemma {:induction false} InUseWitness(live: Live, depth: map<Path, nat>, bound: nat, p: Path)
    returns (q: Path)
    requires Layered(live, depth, bound)
    requires p in live && InUse(live, depth, bound, p)
    ensures q in live && Busy(live, q)
    ensures DriveOf(live, depth, bound, q) == DriveOf(live, depth, bound, p)
    decreases bound - depth[p]
  {
    if Busy(live, p) {
      q := p;
    } else {
      var c :| c in live && live[c].deviceIsPartition && live[c].partitionSlave == p
               && InUse(live, depth, bound, c);
      q := InUseWitness(live, depth, bound, c);
    }
  }
}

=== FILE: jobs.dfy ===
/**
 * The daemon's event translation: the events it emits, the job table
 * `_jobs`, the error slots `_errors`, the media diff of
 * `_on_device_changed` and the state machine of `_device_job_changed`,
 * each as the value the corresponding `Daemon` method computes.
 */
module Jobs {
  import opened Wrappers
  import opened Devices
  import opened Policy

  /** `Job`: the kind and last reported percentage of a job in progress. */
  datatype Job = Job(jobId: string, percentage: real)

  /** The arguments an event is triggered with. */
  datatype Payload =
    | State(dev: Option<Snapshot>)
    | Change(before: Option<Snapshot>, after: Snapshot)
    | Progress(dev: Option<Snapshot>, percentage: real)
    | Failure(dev: Option<Snapshot>, action: string, message: string)

  /** One `trigger(name, *payload)` call. */
  datatype Event = Event(name: string, payload: Payload)

  /** A Python exception the handler raises instead of returning. */
  datatype Fault =
    | NoCachedState   // an attribute read on `None`: the registry has no entry for the path
    | UnrecordedJob   // `del self._jobs[path]` for a path with no recorded job

  /** How a notification handler ended. */
  datatype Outcome = Done | Ignored | Raised(fault: Fault)

  /** `_errors`: per action, the message queued for a path. */
  type ErrorSlots = map<Action, map<Path, string>>

  /** `_errors` has a slot for each of the six actions, as at construction. */
  ghost predicate AllSlots(errors: ErrorSlots) {
    forall a: Action :: a in errors
  }

  /** `_errors` as the constructor builds it. */
  function NoErrors(): (r: ErrorSlots)
    ensures AllSlots(r)
    ensures forall a :: r[a] == map[]
  {
    var r := map[Mount := map[], Unmount := map[], Unlock := map[], Lock := map[],
                  Eject := map[], Detach := map[]];
    assert forall a: Action :: a in r by {
      forall a: Action ensures a in r { ActionsEnumerated(a); }
    }
    r
  }

  /** `Daemon.set_error`: queue `message` for the next failure of `action` on `p`. */
  function SetError(errors: ErrorSlots, p: Path, action: Action, message: string): (r: ErrorSlots)
    requires AllSlots(errors)
    ensures AllSlots(r)
    ensures p in r[action] && r[action][p] == message
    ensures forall q :: q != p && q in errors[action] ==> q in r[action] && r[action][q] == errors[action][q]
    ensures r[action].Keys == errors[action].Keys + {p}
    ensures forall b :: b != action ==> r[b] == errors[b]
  {
    errors[action := errors[action][p := message]]
  }

  /**
   * The media events `_on_device_changed` triggers for a change from
   * `before` to `after`; `None` when it raises, which it does whenever the
   * registry had no entry before the change.
   */
  function MediaEvents(before: Option<Snapshot>, after: Snapshot): (r: Option<seq<Event>>)
    ensures r.None? <==> before.None?
    ensures r.Some? ==> |r.value| <= 1
    ensures r.Some? ==> forall e :: e in r.value ==> e.payload == State(Some(after))
    ensures r.Some? ==> forall e :: e in r.value ==> e.name == "media_added" || e.name == "media_removed"
    ensures r.Some? ==>
      (Event("media_added", State(Some(after))) in r.value <==> after.HasMedia() && !before.value.HasMedia())
    ensures r.Some? ==>
      (Event("media_removed", State(Some(after))) in r.value <==> before.value.HasMedia() && !after.HasMedia())
  {
    match before
    case None => None
    case Some(b) =>
      var added := after.HasMedia() && !b.HasMedia();
      var removed := b.HasMedia() && !after.HasMedia();
      Some((if added then [Event("media_added", State(Some(after)))] else [])
           + (if removed then [Event("media_removed", State(Some(after)))] else []))
  }

  /**
   * The media diff between two captures of the same path answers what the
   * service reported: media appeared exactly when it was absent before and
   * the device now answers with media, and vanished exactly when it was
   * present before and is not now (or the device no longer answers).
   */
  lemma CapturedMediaEvents(earlier: Live, now: Live, p: Path)
    requires p in earlier
    ensures MediaEvents(Some(Capture(earlier, p)), Capture(now, p)).Some?
    ensures Event("media_added", State(Some(Capture(now, p)))) in MediaEvents(Some(Capture(earlier, p)), Capture(now, p)).value
            <==> !earlier[p].deviceIsMediaAvailable && p in now && now[p].deviceIsMediaAvailable
    ensures Event("media_removed", State(Some(Capture(now, p)))) in MediaEvents(Some(Capture(earlier, p)), Capture(now, p)).value
            <==> earlier[p].deviceIsMediaAvailable && !(p in now && now[p].deviceIsMediaAvailable)
  {
  }

  /** What one job notification does to `_jobs` and `_errors`, what it emits and how it ends. */
  datatype JobEffect = JobEffect(jobs: map<Path, Job>, errors: ErrorSlots, events: seq<Event>, outcome: Outcome)

  /** The job kind a notification is classified by: a terminal one uses the recorded job's kind. */
  function EffectiveKind(jobs: map<Path, Job>, p: Path, inProgress: bool, jobId: string): (k: string)
    ensures !inProgress && p in jobs ==> k == jobs[p].jobId
    ensures inProgress || p !in jobs ==> k == jobId
  {
    if !inProgress && p in jobs then jobs[p].jobId else jobId
  }

  /**
   * `Daemon._device_job_changed` for the notification `(p, inProgress,
   * jobId, percentage)`, given the cached state `dev` of `p` (not
   * refreshed first) and the live service for the success check.
   */
  function OnJobChanged(jobs: map<Path, Job>, errors: ErrorSlots, dev: Option<Snapshot>, live: Live,
                        p: Path, inProgress: bool, jobId: string, percentage: real): (r: JobEffect)
    requires AllSlots(errors)
    ensures AllSlots(r.errors)
    ensures r.outcome == Ignored <==> ActionOf(EffectiveKind(jobs, p, inProgress, jobId)).None?
    ensures r.outcome == Ignored ==> r.jobs == jobs && r.errors == errors && r.events == []
    ensures |r.events| <= 1
    ensures r.jobs == jobs || r.jobs == jobs - {p}
            || (inProgress && ActionOf(jobId).Some? && r.jobs == jobs[p := Job(jobId, percentage)])
    ensures forall a :: r.errors[a] == errors[a] || r.errors[a] == errors[a] - {p}
  {
    var kind := EffectiveKind(jobs, p, inProgress, jobId);
    match ActionOf(kind)
    case None => JobEffect(jobs, errors, [], Ignored)
    case Some(action) =>
      if inProgress then
        JobEffect(jobs[p := Job(kind, percentage)], errors,
                  [Event(EventStem(action) + "ing", Progress(dev, percentage))], Done)
      else JobFinished(jobs, errors, dev, live, p, action)
  }

  /**
   * The terminal branch of `_device_job_changed` for a job performing
   * `action`: the success check on the cached state decides between the
   * success event (dropping the recorded job) and `job_failed` (consuming
   * the queued message, keeping the job).
   */
  function JobFinished(jobs: map<Path, Job>, errors: ErrorSlots, dev: Option<Snapshot>, live: Live,
                       p: Path, action: Action): (r: JobEffect)
    requires AllSlots(errors)
    ensures AllSlots(r.errors)
    ensures r.outcome != Ignored
    ensures |r.events| <= 1
    ensures r.jobs == jobs || r.jobs == jobs - {p}
    ensures forall a :: r.errors[a] == errors[a] || r.errors[a] == errors[a] - {p}
  {
    match CheckSuccess(action, dev, live)
    case None => JobEffect(jobs, errors, [], Raised(NoCachedState))
    case Some(true) =>
      if p in jobs then JobEffect(jobs - {p}, errors, [Event(EventStem(action) + "ed", State(dev))], Done)
      else JobEffect(jobs, errors, [Event(EventStem(action) + "ed", State(dev))], Raised(UnrecordedJob))
    case Some(false) =>
      var slot := errors[action];
      var message := if p in slot then slot[p] else "";
      JobEffect(jobs, errors[action := slot - {p}],
                [Event("job_failed", Failure(dev, "device_" + ActionName(action), message))], Done)
  }

  /** Every event a job notification emits is one of the registered names. */
  lemma JobEventsAreRegistered(jobs: map<Path, Job>, errors: ErrorSlots, dev: Option<Snapshot>, live: Live,
                               p: Path, inProgress: bool, jobId: string, percentage: real)
    requires AllSlots(errors)
    ensures var r := OnJobChanged(jobs, errors, dev, live, p, inProgress, jobId, percentage);
            forall e :: e in r.events ==> e.name in EventNames
  {
    var kind := EffectiveKind(jobs, p, inProgress, jobId);
    if ActionOf(kind).Some? {
      var a := ActionOf(kind).value;
      JobEventsRegistered(a);
      if !inProgress {
        FixedEventsRegistered();
        var r := JobFinished(jobs, errors, dev, live, p, a);
        assert r.events == [] || r.events == [Event(EventStem(a) + "ed", State(dev))]
               || (|r.events| == 1 && r.events[0].name == "job_failed");
      }
    }
  }

  /** A job kind the daemon does not track changes nothing and emits nothing. */
  lemma UnknownKindIgnored(jobs: map<Path, Job>, errors: ErrorSlots, dev: Option<Snapshot>, live: Live,
                           p: Path, inProgress: bool, jobId: string, percentage: real)
    requires AllSlots(errors)
    requires inProgress || p !in jobs
    requires ActionOf(jobId).None?
    ensures OnJobChanged(jobs, errors, dev, live, p, inProgress, jobId, percentage)
            == JobEffect(jobs, errors, [], Ignored)
  {
  }

  /**
   * A progress notification of a tracked kind emits `<stem>ing` with the
   * percentage and records the job under `p`.
   */
  lemma ProgressRecordsJob(jobs: map<Path, Job>, errors: ErrorSlots, dev: Option<Snapshot>, live: Live,
                           p: Path, jobId: string, percentage: real)
    requires AllSlots(errors)
    requires ActionOf(jobId).Some?
    ensures var r := OnJobChanged(jobs, errors, dev, live, p, true, jobId, percentage);
            && r.events == [Event(EventStem(ActionOf(jobId).value) + "ing", Progress(dev, percentage))]
            && r.jobs == jobs[p := Job(jobId, percentage)]
            && r.errors == errors
            && r.outcome == Done
  {
  }

  /**
   * A terminal notification for a path with a recorded job is classified
   * by the recorded kind; the kind it carries itself is irrelevant.
   */
  lemma TerminalUsesRecordedKind(jobs: map<Path, Job>, errors: ErrorSlots, dev: Option<Snapshot>, live: Live,
                                 p: Path, jobId: string, percentage: real)
    requires AllSlots(errors)
    requires p in jobs
    ensures OnJobChanged(jobs, errors, dev, live, p, false, jobId, percentage)
            == OnJobChanged(jobs, errors, dev, live, p, false, jobs[p].jobId, percentage)
  {
  }

  /**
   * A terminal notification of a tracked kind ends in exactly one of: the
   * success event `<stem>ed` (with the job removed when it was recorded),
   * the `job_failed` event (with `_jobs` untouched), or, for mount and
   * unlock on a never-seen path, an exception before any event. Which one
   * is decided by the success check on the cached state.
   */
  lemma TerminalOutcome(jobs: map<Path, Job>, errors: ErrorSlots, dev: Option<Snapshot>, live: Live,
                        p: Path, jobId: string, percentage: real)
    requires AllSlots(errors)
    requires ActionOf(EffectiveKind(jobs, p, false, jobId)).Some?
    ensures var action := ActionOf(EffectiveKind(jobs, p, false, jobId)).value;
            var r := OnJobChanged(jobs, errors, dev, live, p, false, jobId, percentage);
            && (CheckSuccess(action, dev, live) == Some(true) ==>
                  && r.events == [Event(EventStem(action) + "ed", State(dev))]
                  && r.jobs == jobs - {p} && r.errors == errors
                  && r.outcome == (if p in jobs then Done else Raised(UnrecordedJob)))
            && (CheckSuccess(action, dev, live) == Some(false) ==>
                  && |r.events| == 1 && r.events[0].name == "job_failed"
                  && r.events[0].payload.action == "device_" + ActionName(action)
                  && r.jobs == jobs && r.outcome == Done)
            && (CheckSuccess(action, dev, live).None? ==>
                  r == JobEffect(jobs, errors, [], Raised(NoCachedState)))
  {
  }

  /**
   * With every recorded job of a tracked kind (which the daemon maintains),
   * a terminal notification for a path with a job is never ignored.
   */
  lemma RecordedJobNotIgnored(jobs: map<Path, Job>, errors: ErrorSlots, dev: Option<Snapshot>, live: Live,
                              p: Path, jobId: string, percentage: real)
    requires AllSlots(errors)
    requires forall q :: q in jobs ==> ActionOf(jobs[q].jobId).Some?
    requires p in jobs
    ensures OnJobChanged(jobs, errors, dev, live, p, false, jobId, percentage).outcome != Ignored
  {
  }

  /**
   * Error messages are consumed exactly once: after `set_error(p, a, m)`,
   * the next failure of action `a` on `p` reports `m`, and the failure after
   * that reports the empty message. Only the slot of `(a, p)` changes.
   */
  lemma ErrorMessageConsumedOnce(jobs: map<Path, Job>, errors: ErrorSlots, dev: Option<Snapshot>, live: Live,
                                 p: Path, jobId: string, percentage: real, message: string)
    requires AllSlots(errors)
    requires ActionOf(EffectiveKind(jobs, p, false, jobId)).Some?
    requires CheckSuccess(ActionOf(EffectiveKind(jobs, p, false, jobId)).value, dev, live) == Some(false)
    ensures var a := ActionOf(EffectiveKind(jobs, p, false, jobId)).value;
            var first := OnJobChanged(jobs, SetError(errors, p, a, message), dev, live, p, false, jobId, percentage);
            var second := OnJobChanged(first.jobs, first.errors, dev, live, p, false, jobId, percentage);
            && first.events == [Event("job_failed", Failure(dev, "device_" + ActionName(a), message))]
            && first.errors == errors[a := errors[a] - {p}]
            && second.events == [Event("job_failed", Failure(dev, "device_" + ActionName(a), ""))]
            && second.errors == first.errors
  {
    var a := ActionOf(EffectiveKind(jobs, p, false, jobId)).value;
    var failed := Failure(dev, "device_" + ActionName(a), message);
    var loaded := SetError(errors, p, a, message);
    var first := OnJobChanged(jobs, loaded, dev, live, p, false, jobId, percentage);
    assert first == JobFinished(jobs, loaded, dev, live, p, a);
    assert first == JobEffect(jobs, loaded[a := loaded[a] - {p}], [Event("job_failed", failed)], Done);
    assert loaded[a] - {p} == errors[a] - {p};
    var second := OnJobChanged(first.jobs, first.errors, dev, live, p, false, jobId, percentage);
    assert second == JobFinished(jobs, first.errors, dev, live, p, a);
    assert p !in first.errors[a];
    assert first.errors[a] - {p} == first.errors[a];
    assert first.errors[a := first.errors[a]] == first.errors;
  }
}

=== FILE: options.dfy ===
/**
 * Option lists passed to the UDisks `FilesystemMount` call: `filter_opt`,
 * Python's `str.split(',')`, the removal of empty segments, and the list
 * `OnlineDevice.mount` builds from them.
 */
module MountOptions {
  import opened Wrappers

  /**
   * `filter_opt`: the keys of a dictionary, in its order, whose value is not
   * `None`. The dictionary is given as its list of items.
   */
  function FilterOpt<V>(opt: seq<(string, Option<V>)>): (keys: seq<string>)
    ensures |keys| <= |opt|
    ensures forall k :: k in keys <==> HasValue(opt, k)
  {
    if opt == [] then []
    else
      assert forall k :: HasValue(opt, k) <==> (opt[0].0 == k && opt[0].1.Some?) || HasValue(opt[1..], k) by {
        forall k | HasValue(opt, k) && !(opt[0].0 == k && opt[0].1.Some?) ensures HasValue(opt[1..], k) {
          var i :| 0 <= i < |opt| && opt[i].0 == k && opt[i].1.Some?;
          assert opt[1..][i - 1] == opt[i];
        }
        forall k | HasValue(opt[1..], k) ensures HasValue(opt, k) {
          var i :| 0 <= i < |opt[1..]| && opt[1..][i].0 == k && opt[1..][i].1.Some?;
          assert opt[i + 1] == opt[1..][i];
        }
      }
      (if opt[0].1.Some? then [opt[0].0] else []) + FilterOpt(opt[1..])
  }

  /** Some item of `opt` has key `k` and a value other than `None`. */
  predicate HasValue<V>(opt: seq<(string, Option<V>)>, k: string) {
    exists i :: 0 <= i < |opt| && opt[i].0 == k && opt[i].1.Some?
  }

  /** `filter_opt` keeps the order of the items: it distributes over concatenation. */
  lemma {:induction false} FilterOptAppend<V>(a: seq<(string, Option<V>)>, b: seq<(string, Option<V>)>)
    ensures FilterOpt(a + b) == FilterOpt(a) + FilterOpt(b)
  {
    if a == [] {
      assert a + b == b;
    } else {
      assert (a + b)[1..] == a[1..] + b;
      FilterOptAppend(a[1..], b);
    }
  }

  /** Python's `s.split(sep)`: the maximal runs between separators; `""` gives `[""]`. */
  function Split(s: string, sep: char): (parts: seq<string>)
    ensures |parts| >= 1
    ensures forall x :: x in parts ==> sep !in x
  {
    if s == [] then [""]
    else
      var rest := Split(s[1..], sep);
      if s[0] == sep then [""] + rest
      else [[s[0]] + rest[0]] + rest[1..]
  }

  /** `sep.join(parts)`. */
  function Join(parts: seq<string>, sep: char): string {
    if parts == [] then ""
    else if |parts| == 1 then parts[0]
    else parts[0] + [sep] + Join(parts[1..], sep)
  }

  /** Splitting then joining gives back the string. */
  lemma {:induction false} JoinSplit(s: string, sep: char)
    ensures Join(Split(s, sep), sep) == s
  {
    if s != [] {
      JoinSplit(s[1..], sep);
      var rest := Split(s[1..], sep);
      if s[0] == sep {
        assert ([""] + rest)[1..] == rest;
      } else {
        var parts := [[s[0]] + rest[0]] + rest[1..];
        if |rest| > 1 {
          assert parts[1..] == rest[1..];
          assert Join(rest, sep) == rest[0] + [sep] + Join(rest[1..], sep);
        }
      }
    }
  }

  /** Joining separator-free parts then splitting gives back the parts. */
  lemma {:induction false} SplitJoin(parts: seq<string>, sep: char)
    requires |parts| >= 1
    requires forall i :: 0 <= i < |parts| ==> sep !in parts[i]
    ensures Split(Join(parts, sep), sep) == parts
    decreases |parts|, |parts[0]|
  {
    if parts[0] == [] {
      if |parts| > 1 {
        assert Join(parts, sep) == [sep] + Join(parts[1..], sep);
        assert (Join(parts, sep))[1..] == Join(parts[1..], sep);
        SplitJoin(parts[1..], sep);
        assert [""] + parts[1..] == parts;
      }
    } else {
      var head := parts[0];
      var shorter := [head[1..]] + parts[1..];
      assert shorter[1..] == parts[1..];
      assert forall i :: 0 <= i < |shorter| ==> sep !in shorter[i] by {
        assert shorter[0] == head[1..];
        forall i | 1 <= i < |shorter| ensures sep !in shorter[i] { assert shorter[i] == parts[i]; }
      }
      SplitJoin(shorter, sep);
      var j := Join(parts, sep);
      assert j == [head[0]] + Join(shorter, sep) by {
        if |parts| == 1 {
          assert head == [head[0]] + head[1..];
        } else {
          assert j == head + [sep] + Join(parts[1..], sep);
          assert Join(shorter, sep) == head[1..] + [sep] + Join(parts[1..], sep);
          assert head == [head[0]] + head[1..];
        }
      }
      assert j[0] == head[0] && j[1..] == Join(shorter, sep);
      assert head[0] != sep;
      assert [head[0]] + head[1..] == head;
      assert [head] + parts[1..] == parts;
    }
  }

  /** `list(filter(None, parts))`: the parts that are not empty, in order. */
  function NonEmpty(parts: seq<string>): (r: seq<string>)
    ensures |r| <= |parts|
    ensures forall x :: x in r <==> x in parts && x != ""
  {
    if parts == [] then []
    else (if parts[0] != "" then [parts[0]] else []) + NonEmpty(parts[1..])
  }

  /**
   * The option list `OnlineDevice.mount` passes on: the non-empty
   * comma-separated segments of `options` (no options meaning the empty
   * string), then `auth_no_user_interaction` when that argument is given.
   */
  function MountOptionList(options: Option<string>, authNoUserInteraction: Option<bool>): (r: seq<string>)
    ensures forall x :: x in r ==> x != "" && ',' !in x
    ensures forall x :: x in Split(options.GetOr(""), ',') && x != "" ==> x in r
    ensures authNoUserInteraction.Some? ==> |r| > 0 && r[|r| - 1] == "auth_no_user_interaction"
    ensures authNoUserInteraction.None? && options.None? ==> r == []
  {
    var segments := NonEmpty(Split(options.GetOr(""), ','));
    var flags := FilterOpt([("auth_no_user_interaction", authNoUserInteraction)]);
    assert forall x :: x in flags ==> x == "auth_no_user_interaction";
    assert forall x :: x in segments ==> x != "" && ',' !in x;
    assert authNoUserInteraction.Some? ==> flags == ["auth_no_user_interaction"] by {
      if authNoUserInteraction.Some? {
        assert HasValue([("auth_no_user_interaction", authNoUserInteraction)], "auth_no_user_interaction");
      }
    }
    segments + flags
  }

  /**
   * The option list `OnlineDevice.mount` builds from options written as
   * comma-joined segments (empty ones allowed): exactly the non-empty
   * segments, in their order, then the `filter_opt` keys of the
   * `auth_no_user_interaction` argument.
   */
  lemma MountOptionListOfJoin(parts: seq<string>, authNoUserInteraction: Option<bool>)
    requires forall i :: 0 <= i < |parts| ==> ',' !in parts[i]
    ensures MountOptionList(Some(Join(parts, ',')), authNoUserInteraction)
            == NonEmpty(parts) + FilterOpt([("auth_no_user_interaction", authNoUserInteraction)])
  {
    if parts != [] {
      SplitJoin(parts, ',');
    }
  }

  /** Omitted options and the empty string give the same list. */
  lemma NoOptionsIsEmptyOptions(authNoUserInteraction: Option<bool>)
    ensures MountOptionList(None, authNoUserInteraction) == MountOptionList(Some(""), authNoUserInteraction)
    ensures MountOptionList(None, authNoUserInteraction) == FilterOpt([("auth_no_user_interaction", authNoUserInteraction)])
  {
    assert Split("", ',') == [""];
  }

  /** Dropping empty parts keeps the order of the rest: it distributes over concatenation. */
  lemma {:induction false} NonEmptyAppend(a: seq<string>, b: seq<string>)
    ensures NonEmpty(a + b) == NonEmpty(a) + NonEmpty(b)
  {
    if a == [] {
      assert a + b == b;
    } else {
      assert (a + b)[1..] == a[1..] + b;
      NonEmptyAppend(a[1..], b);
    }
  }

  /** Parts that are all non-empty are kept whole. */
  lemma {:induction false} NonEmptyKeeps(parts: seq<string>)
    requires forall i :: 0 <= i < |parts| ==> parts[i] != ""
    ensures NonEmpty(parts) == parts
  {
    if parts != [] {
      NonEmptyKeeps(parts[1..]);
    }
  }

  /**
   * The filesystem type passed to `FilesystemMount`: the argument when it is
   * truthy, otherwise the device's `id_type`.
   */
  function MountFsType(fstype: Option<string>, idType: string): (r: string)
    ensures fstype.None? || fstype.value == "" ==> r == idType
    ensures fstype.Some? && fstype.value != "" ==> r == fstype.value
  {
    if fstype.Some? && fstype.value != "" then fstype.value else idType
  }
}

=== FILE: policy.dfy ===
/**
 * The fixed tables of `Daemon`: job kinds to actions (`_action_mapping`),
 * actions to event-name stems (`_event_mapping`), the success check of each
 * job kind (`_check_success`) and the event names registered at
 * construction.
 */
module Policy {
  import opened Wrappers
  import opened Devices

  /** The six actions a UDisks job can represent. */
  datatype Action = Mount | Unmount | Unlock | Lock | Eject | Detach

  /** The six actions are all there are. */
  lemma ActionsEnumerated(a: Action)
    ensures a in {Mount, Unmount, Unlock, Lock, Eject, Detach}
  {
  }

  /** The action's name as the source spells it (the key of `_errors`). */
  function ActionName(a: Action): string {
    match a
    case Mount => "mount"
    case Unmount => "unmount"
    case Unlock => "unlock"
    case Lock => "lock"
    case Eject => "eject"
    case Detach => "detach"
  }

  /** The UDisks job kind that performs an action. */
  function JobKind(a: Action): string {
    match a
    case Mount => "FilesystemMount"
    case Unmount => "FilesystemUnmount"
    case Unlock => "LuksUnlock"
    case Lock => "LuksLock"
    case Detach => "DriveDetach"
    case Eject => "DriveEject"
  }

  /**
   * `_action_mapping`: the action a job kind performs, `None` for a kind
   * the daemon does not track. It is the inverse of `JobKind`.
   */
  function ActionOf(kind: string): (r: Option<Action>)
    ensures forall a :: r == Some(a) <==> JobKind(a) == kind
  {
    match kind
    case "FilesystemMount" => Some(Mount)
    case "FilesystemUnmount" => Some(Unmount)
    case "LuksUnlock" => Some(Unlock)
    case "LuksLock" => Some(Lock)
    case "DriveDetach" => Some(Detach)
    case "DriveEject" => Some(Eject)
    case _ => None
  }

  /** `_event_mapping`: the stem of the progress and success event names. */
  function EventStem(a: Action): (r: string)
    ensures r in Stems
    ensures a == Mount ==> r == "device_mount"
    ensures a == Unmount ==> r == "device_unmount"
    ensures a == Unlock ==> r == "device_unlock"
    ensures a == Lock ==> r == "device_lock"
    ensures a == Eject ==> r == "media_remov"
    ensures a == Detach ==> r == "device_remov"
  {
    match a
    case Mount => "device_mount"
    case Unmount => "device_unmount"
    case Unlock => "device_unlock"
    case Lock => "device_lock"
    case Eject => "media_remov"
    case Detach => "device_remov"
  }

  /** The stems the daemon registers events for, each with `ed` and `ing`. */
  const Stems: seq<string> := [
    "device_add", "device_remov", "device_mount", "device_unmount", "media_add",
    "media_remov", "device_unlock", "device_lock", "device_chang"]

  /** `[stem + suffix for stem in stems]`. */
  function Suffixed(stems: seq<string>, suffix: string): (r: seq<string>)
    ensures |r| == |stems|
    ensures forall i :: 0 <= i < |stems| ==> r[i] == stems[i] + suffix
  {
    seq(|stems|, i requires 0 <= i < |stems| => stems[i] + suffix)
  }

  /** The 19 event names the daemon's emitter is constructed with. */
  const EventNames: seq<string> := Suffixed(Stems, "ed") + Suffixed(Stems, "ing") + ["job_failed"]

  /** Every progress and success event the job tracker can emit is registered. */
  lemma JobEventsRegistered(a: Action)
    ensures EventStem(a) + "ing" in EventNames
    ensures EventStem(a) + "ed" in EventNames
  {
    var k := match a
      case Mount => 2 case Unmount => 3 case Unlock => 6
      case Lock => 7 case Eject => 5 case Detach => 1;
    assert Stems[k] == EventStem(a);
    assert EventNames[k] == EventStem(a) + "ed";
    assert EventNames[|Stems| + k] == EventStem(a) + "ing";
  }

  /**
   * The events a finished job announces are the ones the daemon documents:
   * `device_mounted`, `device_unmounted`, `device_unlocked`, `device_locked`,
   * `media_removed` for an eject and `device_removed` for a detach.
   */
  lemma JobEventNames()
    ensures EventStem(Mount) + "ed" == "device_mounted" && EventStem(Mount) + "ing" == "device_mounting"
    ensures EventStem(Unmount) + "ed" == "device_unmounted" && EventStem(Unmount) + "ing" == "device_unmounting"
    ensures EventStem(Unlock) + "ed" == "device_unlocked" && EventStem(Unlock) + "ing" == "device_unlocking"
    ensures EventStem(Lock) + "ed" == "device_locked" && EventStem(Lock) + "ing" == "device_locking"
    ensures EventStem(Eject) + "ed" == "media_removed" && EventStem(Eject) + "ing" == "media_removing"
    ensures EventStem(Detach) + "ed" == "device_removed" && EventStem(Detach) + "ing" == "device_removing"
  {
  }

  /** The registry, media and failure events the daemon emits are registered. */
  lemma FixedEventsRegistered()
    ensures |EventNames| == 19
    ensures "device_added" in EventNames && "device_removed" in EventNames
    ensures "device_changed" in EventNames
    ensures "media_added" in EventNames && "media_removed" in EventNames
    ensures "job_failed" in EventNames
  {
    assert EventNames[0] == "device_added";
    assert EventNames[1] == "device_removed";
    assert EventNames[8] == "device_changed";
    assert EventNames[4] == "media_added";
    assert EventNames[5] == "media_removed";
    assert EventNames[18] == "job_failed";
  }

  /**
   * `_check_success`, keyed by the action its job kind performs (the two
   * keys are in one-to-one correspondence, see `ActionOf`): whether the
   * cached state `dev` shows the job succeeded. `None` when the check
   * raises: the mount and unlock checks read an attribute of `dev`
   * unguarded, which fails for a device the registry has never seen.
   */
  function CheckSuccess(a: Action, dev: Option<Snapshot>, live: Live): (r: Option<bool>)
    ensures r.None? <==> dev.None? && (a == Mount || a == Unlock)
    ensures dev.Some? && !dev.value.isValid && a != Mount && a != Unlock ==> r == Some(true)
    ensures a == Mount && dev.Some? ==> r == Some(dev.value.IsMounted())
    ensures a == Unmount ==> r == Some(dev.None? || !dev.value.isValid || !dev.value.IsMounted())
    ensures a == Unlock && dev.Some? ==> r == Some(dev.value.IsUnlocked(live))
    ensures a == Lock ==> r == Some(dev.None? || !dev.value.isValid || !dev.value.IsUnlocked(live))
    ensures a == Eject ==> r == Some(dev.None? || !dev.value.isValid || !dev.value.HasMedia())
    ensures a == Detach ==> r == Some(dev.None? || !dev.value.isValid)
  {
    match a
    case Mount => if dev.None? then None else Some(dev.value.IsMounted())
    case Unmount => Some(dev.None? || !dev.value.isValid || !dev.value.IsMounted())
    case Unlock => if dev.None? then None else Some(dev.value.IsUnlocked(live))
    case Lock => Some(dev.None? || !dev.value.isValid || !dev.value.IsUnlocked(live))
    case Eject => Some(dev.None? || !dev.value.isValid || !dev.value.HasMedia())
    case Detach => Some(dev.None? || !dev.value.isValid)
  }

  /**
   * The success checks of a fresh capture answer what the service reports:
   * mounted for mount and its negation for unmount, an answering cleartext
   * holder for unlock and its negation for lock, media for eject.
   */
  lemma CapturedChecks(live: Live, p: Path)
    requires p in live
    ensures CheckSuccess(Mount, Some(Capture(live, p)), live) == Some(live[p].deviceIsMounted)
    ensures CheckSuccess(Unmount, Some(Capture(live, p)), live) == Some(!live[p].deviceIsMounted)
    ensures CheckSuccess(Unlock, Some(Capture(live, p)), live)
            == Some(live[p].deviceIsLuks && live[p].luksHolder in live)
    ensures CheckSuccess(Lock, Some(Capture(live, p)), live)
            == Some(!(live[p].deviceIsLuks && live[p].luksHolder in live))
    ensures CheckSuccess(Eject, Some(Capture(live, p)), live) == Some(!live[p].deviceIsMediaAvailable)
    ensures CheckSuccess(Detach, Some(Capture(live, p)), live) == Some(false)
  {
  }

  /**
   * On a valid cached device, mount and unmount, and unlock and lock, judge
   * the same state oppositely: exactly one of each pair succeeds.
   */
  lemma ChecksComplementary(dev: Snapshot, live: Live)
    requires dev.isValid
    ensures CheckSuccess(Mount, Some(dev), live).value != CheckSuccess(Unmount, Some(dev), live).value
    ensures CheckSuccess(Unlock, Some(dev), live).value != CheckSuccess(Lock, Some(dev), live).value
  {
  }
}

=== FILE: registry.dfy ===
/**
 * The daemon's device cache `_devices`: a map from object path to the
 * latest snapshot. These functions give the value each `Daemon` operation
 * computes; the class in `daemon.dfy` performs them in place.
 */
module Registry {
  import opened Wrappers
  import opened Devices

  type Cache = map<Path, Snapshot>

  /** `Daemon.get`: the cached snapshot, `None` for a path never seen. */
  function Lookup(devices: Cache, p: Path): (r: Option<Snapshot>)
    ensures r.None? <==> p !in devices
    ensures r.Some? ==> r.value == devices[p]
  {
    if p in devices then Some(devices[p]) else None
  }

  /** `Daemon.paths`: the paths whose cached snapshot is valid. */
  function ValidPaths(devices: Cache): (r: set<Path>)
    ensures r <= devices.Keys
    ensures forall p :: p in r <==> p in devices && devices[p].isValid
  {
    set p | p in devices && devices[p].isValid
  }

  /**
   * `UDisks.__iter__` on the daemon: the snapshots of the valid paths
   * (`filter(None, ...)` drops nothing more, since those are all valid).
   */
  function Iterate(devices: Cache): (r: set<Snapshot>)
    ensures forall s :: s in r ==> s.isValid
    ensures forall p :: p in ValidPaths(devices) ==> devices[p] in r
    ensures forall s :: s in r ==> exists p :: p in ValidPaths(devices) && devices[p] == s
  {
    set p | p in ValidPaths(devices) :: devices[p]
  }

  /**
   * `Daemon._invalidate`: a known entry is replaced by a copy flagged
   * invalid, keeping every property; an unknown path changes nothing.
   */
  function Invalidated(devices: Cache, p: Path): (r: Cache)
    ensures r.Keys == devices.Keys
    ensures forall q :: q in devices && q != p ==> r[q] == devices[q]
    ensures p in devices ==> r[p] == devices[p].(isValid := false)
    ensures p !in ValidPaths(r)
  {
    if p in devices then devices[p := devices[p].(isValid := false)] else devices
  }

  /**
   * `Daemon.update` with freshly captured `cached`: stored when it is valid
   * or the path was unknown; otherwise the known entry is invalidated and
   * the fresh (propertyless) snapshot is dropped.
   */
  function Updated(devices: Cache, p: Path, cached: Snapshot): (r: Cache)
    ensures r.Keys == devices.Keys + {p}
    ensures forall q :: q in devices && q != p ==> r[q] == devices[q]
    ensures cached.isValid || p !in devices ==> r[p] == cached
    ensures !cached.isValid && p in devices ==> r[p] == devices[p].(isValid := false)
    ensures p in ValidPaths(r) <==> cached.isValid
  {
    if cached.isValid || p !in devices then devices[p := cached] else Invalidated(devices, p)
  }

  /**
   * `Daemon._sync`: one fresh snapshot for every device the service lists
   * and that answers.
   */
  function Synced(live: Live): (r: Cache)
    ensures r.Keys == live.Keys
    ensures ValidPaths(r) == live.Keys
    ensures forall p :: p in r ==> r[p] == Capture(live, p)
  {
    map p | p in live :: Capture(live, p)
  }

  /** `_invalidate` twice is `_invalidate` once. */
  lemma InvalidateIdempotent(devices: Cache, p: Path)
    ensures Invalidated(Invalidated(devices, p), p) == Invalidated(devices, p)
  {
  }

  /**
   * Once a path is known it stays known: neither `update` nor `_invalidate`
   * removes a key.
   */
  lemma KeysNeverShrink(devices: Cache, p: Path, q: Path, cached: Snapshot)
    ensures devices.Keys <= Updated(devices, p, cached).Keys
    ensures devices.Keys == Invalidated(devices, q).Keys
  {
  }

  /**
   * After an update that captured a valid snapshot, `get` returns that
   * snapshot; after one that captured an invalid snapshot of a known
   * path, `get` returns the old entry flagged invalid, not the fresh one.
   */
  lemma UpdateThenLookup(devices: Cache, p: Path, cached: Snapshot)
    ensures cached.isValid ==> Lookup(Updated(devices, p, cached), p) == Some(cached)
    ensures !cached.isValid && p in devices ==>
              Lookup(Updated(devices, p, cached), p) == Some(devices[p].(isValid := false))
  {
  }

  /**
   * Late binding: a snapshot captured earlier reads its partition slave from
   * the service as it is now. What the daemon's cache holds for the slave
   * plays no part; where that entry is stale, the read disagrees with it.
   */
  lemma PartitionSlaveIsLateBound(devices: Cache, earlier: Live, now: Live, p: Path)
    requires p in earlier && earlier[p].deviceIsPartition
    ensures PartitionSlaveOf(now, Capture(earlier, p)) == Some(Capture(now, earlier[p].partitionSlave))
    ensures Lookup(devices, earlier[p].partitionSlave) != Some(Capture(now, earlier[p].partitionSlave)) ==>
              PartitionSlaveOf(now, Capture(earlier, p)) != Lookup(devices, earlier[p].partitionSlave)
  {
  }
}

=== FILE: wrappers.dfy ===
/** Option, used wherever the source answers `None`. */
module Wrappers {
  datatype Option<+T> = None | Some(value: T) {
    /** The value, or `default` when there is none (Python's `x or default` on a missing value). */
    function GetOr(default: T): T {
      match this
      case Some(v) => v
      case None => default
    }
  }
}
